=== FILE: README.md ===
# Ephemeral share store — a Dafny model

This project models the server logic of a file and text sharing web
application. A sender uploads a file (to UploadThing) or pastes a text and
receives a six-digit code. A receiver types the code and gets the record
back, until the record expires fifteen minutes later. A cron endpoint deletes
expired blobs.

The model is functional. The state is a `Db.Store`:

- `records`: a map from token to the stored record and its expiry instant in
  milliseconds. This is the Redis `SET token json EX 900`.
- `schedule`: a map from cleanup member to score. This is the Redis sorted set
  `cleanup_schedule`.
- `connected`: whether lib/db.ts created its Redis client.

Every handler is a pure function. It takes the store, the request, an explicit
clock `now`, the random draw, and the outcome of each external call
(`Common.Call`: it returns, or it throws with a message). It returns the new
store and the reply. The modules follow the source files:

| module | source |
|---|---|
| `Common` | JavaScript string facts (`length`, `includes`, `startsWith`), truthiness, replies |
| `Tokens` | `crypto.randomInt(100000, 999999).toString()` in both upload routes |
| `Db` | lib/db.ts |
| `SortedSet` | the `ZRANGEBYSCORE` and `ZREM` commands of the cleanup route |
| `Cleanup` | app/api/cron/cleanup/route.ts |
| `Route`, `ShareText` | app/api/share-text/route.ts |
| `Route`, `Upload` | app/api/upload/route.ts |
| `Retrieve` | app/api/retrieve/route.ts |
| `Receiver` | the code entry of components/FileReceiver.tsx |
| `Exchange` | lemmas that span several handlers |

Constants follow the code, not the UI text:

- The TTL is 900 s (`Db.TtlMillis`). The uploader's page says 24 hours, and
  this model does not use that text.
- Tokens are drawn from 100000..999998. The upper bound of `randomInt` is
  exclusive, so "999999" is never minted.
- The text cap applies to `text.length`, counted in UTF-16 code units
  (`Common.Utf16Length`). The stored `size` is the Blob byte count. It is a
  separate input with no claimed relation to the length.

## Model

| member | source | states |
|---|---|---|
| Common.Utf16Length | app/api/share-text/route.ts:14 | `text.length` counts UTF-16 units: between the number of characters and twice it, equal to it exactly when no character lies outside the Basic Multilingual Plane |
| Common.AstralLength | app/api/share-text/route.ts:14 | characters outside the Basic Multilingual Plane count twice towards the cap |
| Common.IncludesInside | app/api/upload/route.ts:16 | any header containing "application/json" passes `includes`, whatever surrounds it |
| Common.IncludesNeedsLength | app/api/upload/route.ts:14-16 | a header shorter than "application/json" (the `''` default included) never passes |
| Tokens.Decimal | app/api/share-text/route.ts:18 | `toString()` yields decimal digits only, with a leading '0' exactly for zero, one character exactly below ten |
| Tokens.DecimalRoundTrip | app/api/upload/route.ts:30 | the rendered token reads back as the draw, so rendering loses nothing |
| Tokens.ParseDecimalRoundTrip | app/api/upload/route.ts:30 | every canonical numeral is the rendering of the number it denotes |
| Tokens.MintToken | app/api/share-text/route.ts:18 | a minted token is six ASCII digits with no leading zero and denotes the draw |
| Tokens.MintTokenInjective | app/api/share-text/route.ts:18 | two draws give the same token only if they are equal |
| Tokens.NeverMintsAllNines | app/api/upload/route.ts:30 | because the bound 999999 is exclusive, the code "999999" is never minted |
| Tokens.MintTokenOnto | app/api/upload/route.ts:30 | every six-digit code without a leading zero other than "999999" is minted by some draw |
| SortedSet.RangeByScore | app/api/cron/cleanup/route.ts:16 | for every sorted set and range, a listing exists that has each in-range member once, nothing else, in score order |
| SortedSet.Remove | app/api/cron/cleanup/route.ts:48-51 | `ZREM` drops the listed members and keeps every other member with its score |
| SortedSet.EmptyListing | app/api/cron/cleanup/route.ts:16-20 | the listing is empty exactly when no score lies in the range |
| SortedSet.ListingsAgree | app/api/cron/cleanup/route.ts:16 | any two correct listings hold the same members |
| Db.SaveMetadata | lib/db.ts:25-37 | without a client the save throws "Redis client not initialized" and changes nothing; it succeeds exactly when the `SET` returns and, for a truthy fileKey, the `ZADD` returns; other tokens are untouched; records stay under their own token |
| Db.GetMetadata | lib/db.ts:39-43 | a record comes back exactly when there is a client and the token's entry has not expired, and it is the record stored under that token |
| Db.Evict | lib/db.ts:29 | Redis's reclamation keeps exactly the live entries, unchanged |
| Db.EvictUnobservable | lib/db.ts:39-43 | an expired record reads exactly like one never stored |
| Db.SaveThenGet | lib/db.ts:29 | after a save at t, every read before t + 900000 ms returns the saved record unchanged, whatever the schedule write did |
| Db.SaveExpires | lib/db.ts:28-29 | from t + 900000 ms on, the record reads as null, the same as with the token removed |
| Db.SetWritesEntry | lib/db.ts:29 | a returning `SET` stores the record under its own token, expiring 900 s after the save, whatever the `ZADD` does |
| Db.LastWriteWins | lib/db.ts:29 | a second save under the same token replaces the first record and its expiry, with no uniqueness check |
| Db.ScheduledIffFileKey | lib/db.ts:31-36 | a member `{key, token}` scored at save time plus 15 minutes is added exactly when fileKey is truthy; otherwise the schedule is unchanged; other members keep their scores |
| Db.PartialSave | lib/db.ts:28-36 | when the `ZADD` fails, the save throws, but the record is stored and readable with no schedule entry |
| Db.GetWithoutClient | lib/db.ts:40 | without a client every lookup is null |
| Db.CleanupAlignedWithExpiry | lib/db.ts:28-35 | the cleanup member's score is reached exactly when the record stops being readable |
| Db.OverwriteKeepsOldMember | lib/db.ts:29-35 | overwriting a token with a record that has another fileKey leaves the old member, and so the old blob's cleanup, in place |
| Cleanup.TruthyKeys | app/api/cron/cleanup/route.ts:27-39 | `keysToDelete` holds only non-empty keys, at most one per listed item |
| Cleanup.TruthyKeysMembers | app/api/cron/cleanup/route.ts:27-39 | each collected key is the key of a parseable listed member, and the key of every parseable member whose key is truthy is collected |
| Cleanup.TruthyKeysStep | app/api/cron/cleanup/route.ts:29-35 | one more listed item adds its own truthy key, if any, at the end of the keys |
| Cleanup.TruthyKeysAppend | app/api/cron/cleanup/route.ts:27-39 | the keys follow listing order: the keys of a concatenation are the keys of each part, in order |
| Cleanup.KeysIffKeyedMember | app/api/cron/cleanup/route.ts:29-32 | some key is collected exactly when some listed member has a truthy key |
| Cleanup.NoKeysWithoutKeyedMembers | app/api/cron/cleanup/route.ts:33-37 | corrupt members and members without a key contribute no key |
| Cleanup.Partition | app/api/cron/cleanup/route.ts:24-39 | the loop pushes every listed item, corrupt or not, to `itemsToRemove`, and to `keysToDelete` exactly the truthy keys in order |
| Cleanup.Sweep | app/api/cron/cleanup/route.ts:10-62 | records are never touched; members scored outside [0, now] keep membership and score; "No files to clean up" exactly when nothing is due, with no delete and no change; the delete asks for exactly the truthy keys and comes before removal; a 200 leaves no due member; any failure is a 500 that removes nothing; the reply's `deleted` is the length of `keys` |
| Cleanup.SweepIdempotent | app/api/cron/cleanup/route.ts:16-20 | a second sweep at the same instant after a successful one finds nothing due and changes nothing |
| Cleanup.SweepScheduleIndependentOfOrder | app/api/cron/cleanup/route.ts:16-51 | the schedule left behind does not depend on the order in which the members were listed |
| Cleanup.SweepExample | app/api/cron/cleanup/route.ts:15-56 | with one member due 10 ms ago and one due in a second, only the first key is deleted and only the first member removed |
| Cleanup.DeleteFailureKeepsMembers | app/api/cron/cleanup/route.ts:42-61 | when `deleteFiles` throws, the reply is a 500 with its message and every member stays scheduled |
| ShareText.TextRecord | app/api/share-text/route.ts:20-28 | the text record keeps the text, the token and the save time; it is named "Text Snippet" with type `text/plain`, its size is the byte count, its filePath is the empty string, and it has no fileKey |
| ShareText.Post | app/api/share-text/route.ts:5-37 | a missing, empty or non-string text is a 400 "Text content is required"; a 400 happens exactly when the text is refused, and then nothing is stored or counted; the schedule is never touched; a save that throws (no client, or a failing `SET`) stores nothing; the counter is called exactly when the record was stored; success returns a six-digit token under which the text record reads back for the whole TTL |
| ShareText.CapBoundary | app/api/share-text/route.ts:13-16 | a text of exactly 100000 code units passes the cap; one of 100001 is a 400 and stores nothing |
| ShareText.CapCountsCodeUnits | app/api/share-text/route.ts:14 | 50001 characters outside the Basic Multilingual Plane exceed the cap |
| ShareText.StoredDespiteCounterFailure | app/api/share-text/route.ts:20-35 | if the counter throws after the save, the reply is a 500, but the text is stored and readable |
| Upload.FileRecord | app/api/upload/route.ts:16-42 | the stored record maps url to filePath, name to originalName, size to size and key to fileKey, with the fixed type `application/octet-stream` |
| Upload.DatabaseError | app/api/upload/route.ts:46-49 | the 502 message starts with "Database Failed:" and ends with the thrown message |
| Upload.Post | app/api/upload/route.ts:6-57 | a content type without "application/json" is a 400 that stores nothing; a failed save or increment after the gate is a 502 "Database Failed: ..." and no other status; a save that throws before its write stores nothing and skips the counter; once the `SET` returned, the record stays readable even behind a 502, and a failed `ZADD` leaves the schedule unchanged; the counter is called exactly when the save returned; success returns the minted token, under which the mapped record reads back for the whole TTL; on success a member `{key, token}` is added exactly when the key is truthy |
| Upload.CharsetPassesGate | app/api/upload/route.ts:14-16 | "application/json; charset=..." passes the gate |
| Upload.MissingHeaderRefused | app/api/upload/route.ts:14-26 | a request with no content-type header is a 400 that stores nothing |
| Upload.EmptyBodyStored | app/api/upload/route.ts:18-42 | missing body fields are not rejected: they are stored as absent, and no cleanup member is added |
| Upload.NoClientIs502 | app/api/upload/route.ts:46-49 | without a Redis client the upload is a 502 "Database Failed: Redis client not initialized" |
| Retrieve.PublicView | app/api/retrieve/route.ts:18-21 | the public view carries every field of the record except `filePath`, unchanged |
| Retrieve.WithFilePath | app/api/retrieve/route.ts:19 | putting the path back inverts the view |
| Retrieve.PublicViewDropsOnlyFilePath | app/api/retrieve/route.ts:19 | two records have the same view exactly when they differ at most in `filePath` |
| Retrieve.Post | app/api/retrieve/route.ts:4-26 | a missing or empty token is exactly the 400 "Token is required"; a 200 exactly when the token's record is live, carrying its public view for that token; every 404 is the same "Invalid token"; a 500 "Server error" exactly when the body is unreadable or the `GET` throws, while a missing client reads as a 404 |
| Retrieve.NotFoundParity | app/api/retrieve/route.ts:14-16 | an expired token and a never-stored token get the identical 404 |
| Retrieve.RetrieveRepeatable | app/api/retrieve/route.ts:12 | a lookup does not consume the record: a live token always answers with its public view |
| Receiver.DigitsOf | components/FileReceiver.tsx:71 | removing non-digits leaves only digits, and no more characters than the input had |
| Receiver.DigitsOfMembers | components/FileReceiver.tsx:71 | a character survives exactly when it is a digit occurring in the input |
| Receiver.DigitsOfSkip | components/FileReceiver.tsx:71 | a non-digit anywhere in the input is dropped without affecting the other digits |
| Receiver.DigitsOfAppend | components/FileReceiver.tsx:71 | the digits keep their input order |
| Receiver.DigitsOfDigits | components/FileReceiver.tsx:71 | a string of digits is left unchanged |
| Receiver.Sanitise | components/FileReceiver.tsx:71 | the sanitised code has only ASCII digits, at most six, and is the first min(6, number of digits) digits of the input |
| Receiver.SanitiseIdempotent | components/FileReceiver.tsx:71 | sanitising twice is sanitising once |
| Receiver.SanitiseIgnoresNonDigit | components/FileReceiver.tsx:71 | a non-digit typed anywhere is ignored |
| Receiver.SanitiseKeepsFirstSix | components/FileReceiver.tsx:71 | after six digits, anything further is ignored |
| Receiver.SanitiseToken | components/FileReceiver.tsx:71 | a six-digit code passes the sanitiser unchanged |
| Receiver.OnChange | components/FileReceiver.tsx:70-74 | the code becomes the sanitised input, and the error is cleared exactly when it reaches six digits |
| Receiver.CheckFile | components/FileReceiver.tsx:21-45 | a code shorter than six digits sends no request and changes nothing; otherwise the request is sent for the code, loading ends, and a record is shown exactly when the route answered 200, else the error is "Invalid code or file expired." |
| Receiver.FailuresLookAlike | components/FileReceiver.tsx:32-41 | every failed lookup (400, 404, 500, or no answer) leaves the same state |
| Exchange.ShareTextThenReceive | app/api/share-text/route.ts:18-32 | a receiver who types the returned code before expiry can press the button and sees the text record without its path |
| Exchange.ExpiredShareLooksUnissued | app/api/retrieve/route.ts:12-16 | after expiry the returned code gets the same 404 as a code never issued, and the receiver shows the generic error |
| Exchange.UploadCleanupFollowsExpiry | lib/db.ts:28-35 | an upload's cleanup member is due exactly when its code stops finding the record, and a sweep at any instant from expiry on, over the schedule the upload left, asks to delete its key |

The retrieve handler returns a reply and no store, so it cannot change the
records or the schedule. Its result type `Retrieve.PublicMetadata` has no
`filePath` field, so no reply can carry one. The button of the receiver is
enabled exactly when `Receiver.CanCheck` holds: six digits and no lookup in
flight (components/FileReceiver.tsx:89).

## Left out

- Rendering, animation, styling, polling and clipboard calls of the pages and
  components (app/page.tsx, components/FileUploader.tsx,
  components/TextSharer.tsx, components/TotalFilesCounter.tsx,
  components/AdPlaceholder.tsx): presentation and browser I/O.
- The download route app/api/file/[token]/route.ts and `downloadFile` of the
  receiver: a network fetch of the blob and a page navigation.
- lib/storage.ts: it writes files to a local directory, and none of the modelled routes call it.
- app/api/uploadthing/core.ts: vendor configuration. The file size limit is
  enforced by UploadThing.
- `incrementTotalFiles`, `getTotalFiles` and app/api/stats/route.ts: these are
  not defined in lib/db.ts. The increment is an opaque call that may throw
  (`Route.Env.increment`). The model records only whether it was called.
- The Redis client singleton and environment variables: only the
  `Store.connected` flag. The cleanup route creates its own client, and its
  failures are the `Cleanup.SweepCalls` outcomes.
- Redis internals: `SET ... EX`, `GET`, `ZADD`, `ZRANGEBYSCORE` and `ZREM` are
  map updates. A call that throws is taken to have written nothing.
- JSON: a record reads back as the record written. A cleanup member is its
  parsed form (`Db.Member`), so two spellings of the same JSON object written
  by other code count as one member.
- Retrieve.Post: a truthy non-string `token` (a JSON number) is not modelled.
  The model treats such a token as absent, while the source would pass it to
  Redis.
- Cleanup.TruthyKeys: a member whose `key` is a truthy non-string JSON value is
  treated as having no key. The source would push that value to `keysToDelete`.
- Upload.FileRecord: body fields are strings or an integer size, or absent.
  Other JSON values are not modelled.
- Strings are sequences of Unicode scalar values. JavaScript strings holding
  unpaired surrogates cannot be written in the model.
- The expiry boundary: a record is readable while `now < expiresAt`. The
  millisecond at which Redis itself drops the key is not modelled.
- Three clock readings of one request are one shared `now`: the `Date.now()`
  of `createdAt`, Redis's own clock when it applies `EX 900`, and the
  `Date.now()` of the schedule score. The skew between them is not modelled.
- `ZRANGEBYSCORE` orders members of equal score by their bytes. The model
  leaves that tie order open. `Cleanup.SweepScheduleIndependentOfOrder` shows
  that the resulting schedule does not depend on it.
- The keyspace is shared by tokens, `cleanup_schedule` and the counter's key.
  The model keeps tokens apart from the other two, so a lookup of one of those
  key names is not modelled.
- The `maxLength={50000}` of the text box in components/TextSharer.tsx: a
  browser-side limit. The route's own cap of 100000 is modelled.
- The intermediate `loading` state of `checkFile` while a request is in
  flight: a lookup is one atomic step.
- Concurrency between the sweep and the other handlers: there is no in-process
  coordination, and each handler is one atomic step.

=== FILE: cleanup.dfy ===
/** The cron sweep, `GET /api/cron/cleanup`: list the `cleanup_schedule`
    members whose score lies in [0, now], collect the truthy `key` of each
    parseable one, delete those blobs from UploadThing in one call, then remove
    every listed member from the schedule. The metadata records are never
    touched; they expire on their own. */
module Cleanup {
  import opened Common
  import opened Db
  import opened SortedSet

  /** Reply body when no member is due. */
  const NothingToClean := "No files to clean up"

  /** A member is due at now when its score lies in the inclusive range [0, now]. */
  predicate Due(score: int, now: int) {
    0 <= score <= now
  }

  /** What the three external calls of the sweep do: `ZRANGEBYSCORE`,
      UploadThing's `deleteFiles`, and `ZREM`. */
  datatype SweepCalls = SweepCalls(range: Call, delete: Call, remove: Call)

  /** The 200 reply bodies: `{message}` when nothing is due, else `{deleted, keys}`. */
  datatype SweepBody = NothingDue(message: string) | Deleted(deleted: nat, keys: seq<string>)

  /** The state after the sweep, the blob keys it asked UploadThing to delete
      (None when `deleteFiles` was not called), and the reply. */
  datatype SweepResult = SweepResult(store: Store, deleteRequest: Option<seq<string>>, reply: Reply<SweepBody>)

  /** The blob key one listed member contributes: its `key` when the member
      parses and the key is truthy, nothing otherwise. */
  function KeyOf(item: Member): seq<string> {
    if item.Pair? && Truthy(item.key) then [item.key.value] else []
  }

  /** `keysToDelete` as the loop leaves it: the truthy keys of the parseable
      items, in listing order. */
  function TruthyKeys(items: seq<Member>): (keys: seq<string>)
    ensures |keys| <= |items|
    ensures forall k | k in keys :: k != ""
  {
    if items == [] then []
    else TruthyKeys(items[..|items| - 1]) + KeyOf(items[|items| - 1])
  }

  /** The collected keys are exactly the truthy keys of parseable listed
      members: each key comes from such a member, and each such member's key
      is collected. */
  lemma {:induction false} TruthyKeysMembers(items: seq<Member>)
    ensures forall k | k in TruthyKeys(items) :: exists i | 0 <= i < |items| :: items[i].Pair? && items[i].key == Some(k)
    ensures forall i | 0 <= i < |items| && items[i].Pair? && Truthy(items[i].key) :: items[i].key.value in TruthyKeys(items)
  {
    if items != [] {
      var init := items[..|items| - 1];
      assert forall i | 0 <= i < |init| :: init[i] == items[i];
      TruthyKeysMembers(init);
    }
  }

  /** Keys only come from keyed members: a listing of members without a
      truthy key (corrupt members included) asks for no deletion. */
  lemma {:induction false} NoKeysWithoutKeyedMembers(items: seq<Member>)
    requires forall i | 0 <= i < |items| :: !(items[i].Pair? && Truthy(items[i].key))
    ensures TruthyKeys(items) == []
  {
    if items != [] {
      var init := items[..|items| - 1];
      assert forall i | 0 <= i < |init| :: init[i] == items[i];
      NoKeysWithoutKeyedMembers(init);
    }
  }

  /** Some key is collected exactly when some listed member is keyed. */
  lemma KeysIffKeyedMember(items: seq<Member>)
    ensures TruthyKeys(items) != [] <==> exists m | m in items :: m.Pair? && Truthy(m.key)
  {
    var keys := TruthyKeys(items);
    TruthyKeysMembers(items);
    if keys != [] {
      assert keys[0] in keys;
      var i :| 0 <= i < |items| && items[i].Pair? && items[i].key == Some(keys[0]);
      assert items[i] in items;
    }
    if exists m | m in items :: m.Pair? && Truthy(m.key) {
      var m :| m in items && m.Pair? && Truthy(m.key);
      var i :| 0 <= i < |items| && items[i] == m;
      assert m.key.value in keys;
    }
  }

  /** The keys of a concatenation are the keys of each part, in order. */
  lemma {:induction false} TruthyKeysAppend(a: seq<Member>, b: seq<Member>)
    ensures TruthyKeys(a + b) == TruthyKeys(a) + TruthyKeys(b)
    decreases |b|
  {
    if b == [] {
      assert a + b == a;
    } else {
      var binit := b[..|b| - 1];
      assert (a + b)[..|a + b| - 1] == a + binit;
      TruthyKeysAppend(a, binit);
    }
  }

  /** One more item of the listing adds its own key, if any, at the end. */
  lemma TruthyKeysStep(items: seq<Member>, n: nat)
    requires n < |items|
    ensures TruthyKeys(items[..n + 1]) == TruthyKeys(items[..n]) + KeyOf(items[n])
  {
    assert items[..n + 1][..n] == items[..n];
  }

  /** The `for (const item of expiredItems)` loop: every item goes to
      `itemsToRemove`, parseable or not, and its truthy key to `keysToDelete`. */
  method Partition(items: seq<Member>) returns (keysToDelete: seq<string>, itemsToRemove: seq<Member>)
    ensures keysToDelete == TruthyKeys(items)
    ensures itemsToRemove == items
  {
    keysToDelete := [];
    itemsToRemove := [];
    var n := 0;
    while n < |items|
      invariant 0 <= n <= |items|
      invariant keysToDelete == TruthyKeys(items[..n])
      invariant itemsToRemove == items[..n]
    {
      var item := items[n];
      TruthyKeysStep(items, n);
      keysToDelete := keysToDelete + KeyOf(item);
      itemsToRemove := itemsToRemove + [item];
      n := n + 1;
    }
    assert items[..n] == items;
  }

  /** One run of the sweep at time now, given the answer items of
      `ZRANGEBYSCORE cleanup_schedule 0 now`. */
  function Sweep(s: Store, now: int, items: seq<Member>, calls: SweepCalls): (r: SweepResult)
    requires IsRangeListing(s.schedule, 0, now, items)
    // the metadata records and the client are never touched
    ensures r.store.records == s.records && r.store.connected == s.connected
    // nothing is added, and members not due keep their membership and score
    ensures r.store.schedule.Keys <= s.schedule.Keys
    ensures forall m | m in s.schedule && !Due(s.schedule[m], now) :: m in r.store.schedule && r.store.schedule[m] == s.schedule[m]
    ensures forall m | m in r.store.schedule :: r.store.schedule[m] == s.schedule[m]
    // a reply of 200 means no due member is left, corrupt ones included
    ensures r.reply.Ok? ==> forall m | m in r.store.schedule :: !Due(r.store.schedule[m], now)
    // "nothing to clean up" exactly when the listing worked and nothing was due; then nothing happens
    ensures r.reply == Ok(NothingDue(NothingToClean)) <==> calls.range.Returns? && forall m | m in s.schedule :: !Due(s.schedule[m], now)
    ensures r.reply == Ok(NothingDue(NothingToClean)) ==> r.store == s && r.deleteRequest == None
    // the delete is requested for exactly the truthy keys, and only when there is one
    ensures r.deleteRequest.Some? ==> r.deleteRequest.value == TruthyKeys(items) && r.deleteRequest.value != []
    ensures r.reply.Ok? && TruthyKeys(items) != [] ==> r.deleteRequest == Some(TruthyKeys(items))
    // the reply reports what was requested
    ensures r.reply.Ok? && r.reply.body.Deleted? ==> r.reply.body.keys == TruthyKeys(items) && r.reply.body.deleted == |r.reply.body.keys|
    // a failure anywhere is a 500 and removes no member
    ensures r.reply.Error? ==> r.reply.status == 500 && r.store.schedule == s.schedule
    ensures r.reply.Error? <==> calls.range.Throws? || (items != [] && ((TruthyKeys(items) != [] && calls.delete.Throws?) || calls.remove.Throws?))
  {
    if calls.range.Throws? then SweepResult(s, None, Error(500, calls.range.message))
    else if items == [] then
      EmptyListing(s.schedule, 0, now, items);
      SweepResult(s, None, Ok(NothingDue(NothingToClean)))
    else
      EmptyListing(s.schedule, 0, now, items);
      var keys := TruthyKeys(items);
      var request := if keys != [] then Some(keys) else None;
      if keys != [] && calls.delete.Throws? then SweepResult(s, request, Error(500, calls.delete.message))
      else if calls.remove.Throws? then SweepResult(s, request, Error(500, calls.remove.message))
      else SweepResult(s.(schedule := Remove(s.schedule, items)), request, Ok(Deleted(|keys|, keys)))
  }

  /** A second sweep at the same instant, after a successful one and with no
      member added in between, finds nothing due and changes nothing. */
  lemma SweepIdempotent(s: Store, now: int, items: seq<Member>, calls: SweepCalls, again: seq<Member>, calls2: SweepCalls)
    requires IsRangeListing(s.schedule, 0, now, items)
    requires Sweep(s, now, items, calls).reply.Ok?
    requires IsRangeListing(Sweep(s, now, items, calls).store.schedule, 0, now, again)
    requires calls2.range.Returns?
    ensures var first := Sweep(s, now, items, calls).store;
            Sweep(first, now, again, calls2) == SweepResult(first, None, Ok(NothingDue(NothingToClean)))
  {
    var first := Sweep(s, now, items, calls).store;
    EmptyListing(first.schedule, 0, now, again);
  }

  /** The sweep's result does not depend on which correct listing Redis
      returned, as far as the schedule left behind is concerned. */
  lemma SweepScheduleIndependentOfOrder(s: Store, now: int, a: seq<Member>, b: seq<Member>, calls: SweepCalls)
    requires IsRangeListing(s.schedule, 0, now, a) && IsRangeListing(s.schedule, 0, now, b)
    ensures Sweep(s, now, a, calls).store == Sweep(s, now, b, calls).store
  {
    ListingsAgree(s.schedule, 0, now, a, b);
    EmptyListing(s.schedule, 0, now, a);
    EmptyListing(s.schedule, 0, now, b);
    assert (TruthyKeys(a) != []) == (TruthyKeys(b) != []) by {
      KeysIffKeyedMember(a);
      KeysIffKeyedMember(b);
    }
    var ra := Sweep(s, now, a, calls);
    var rb := Sweep(s, now, b, calls);
    if ra.reply.Error? {
      assert rb.reply.Error?;
    } else if a == [] {
      assert b == [];
    } else {
      assert ra.store == s.(schedule := Remove(s.schedule, a));
      assert rb.store == s.(schedule := Remove(s.schedule, b));
      assert Remove(s.schedule, a) == Remove(s.schedule, b);
    }
  }

  /** One member due ten milliseconds ago and one due in a second: only the
      first blob is deleted and only the first member removed. */
  lemma SweepExample(s: Store, now: int, k1: string, t1: string, k2: string, t2: string)
    requires now >= 10 && k1 != "" && (k1, t1) != (k2, t2)
    requires s.schedule == map[Pair(Some(k1), Some(t1)) := now - 10, Pair(Some(k2), Some(t2)) := now + 1000]
    ensures var r := Sweep(s, now, [Pair(Some(k1), Some(t1))], SweepCalls(Returns, Returns, Returns));
            && r.deleteRequest == Some([k1])
            && r.reply == Ok(Deleted(1, [k1]))
            && r.store.schedule == map[Pair(Some(k2), Some(t2)) := now + 1000]
  {
    var due := Pair(Some(k1), Some(t1));
    var later := Pair(Some(k2), Some(t2));
    var items := [due];
    assert due != later;
    assert s.schedule.Keys == {due, later};
    assert IsRangeListing(s.schedule, 0, now, items);
    assert TruthyKeys(items) == [k1] by {
      assert items[..0] == [];
    }
    var left := Remove(s.schedule, items);
    assert left.Keys == {later};
    assert left == map[later := now + 1000];
  }

  /** When UploadThing's delete throws, no member is removed: the listed
      members stay scheduled and the next sweep retries them. */
  lemma DeleteFailureKeepsMembers(s: Store, now: int, items: seq<Member>, calls: SweepCalls)
    requires IsRangeListing(s.schedule, 0, now, items)
    requires calls.range.Returns? && calls.delete.Throws? && TruthyKeys(items) != []
    ensures var r := Sweep(s, now, items, calls);
            && r.reply == Error(500, calls.delete.message)
            && r.deleteRequest == Some(TruthyKeys(items))
            && r.store == s
  {
  }
}

=== FILE: common.dfy ===
/** Vocabulary shared by every part of the model: optional values, the outcome
    of an awaited call into Redis, UploadThing or the file counter, HTTP
    replies, and the two JavaScript string facts the routes depend on
    (`length` in UTF-16 code units, and `includes`). */
module Common {

  /** A value that may be absent: a missing JSON field, or a `null` result. */
  datatype Option<+T> = None | Some(value: T) {
    function GetOr(default: T): T {
      match this
      case Some(v) => v
      case None => default
    }
  }

  /** What an awaited external call did: it returned, or it threw an error
      carrying this message. A call that throws is taken to have written nothing. */
  datatype Call = Returns | Throws(message: string)

  /** An HTTP reply of a route handler: status 200 with a JSON body, or an
      error status with the `error` string of its JSON body. */
  datatype Reply<+T> = Ok(body: T) | Error(status: int, message: string) {
    function Status(): int {
      match this
      case Ok(_) => 200
      case Error(code, _) => code
    }
  }

  /** JavaScript truthiness of a field that holds a string or nothing:
      `undefined` and `''` are falsy, every other string is truthy. */
  predicate Truthy(s: Option<string>) {
    s.Some? && s.value != ""
  }

  /** Number of UTF-16 code units one character occupies. */
  function CodeUnits(c: char): (n: nat)
    ensures 1 <= n <= 2
    ensures n == 1 <==> c as int < 0x1_0000
  {
    if c as int < 0x1_0000 then 1 else 2
  }

  /** JavaScript's `s.length`: the number of UTF-16 code units of s, where a
      character outside the Basic Multilingual Plane counts twice. */
  function Utf16Length(s: string): (n: nat)
    ensures |s| <= n <= 2 * |s|
    ensures n == |s| <==> forall i | 0 <= i < |s| :: s[i] as int < 0x1_0000
  {
    if s == [] then 0
    else
      var init := s[..|s| - 1];
      assert forall i | 0 <= i < |init| :: init[i] == s[i];
      Utf16Length(init) + CodeUnits(s[|s| - 1])
  }

  /** A string of characters outside the Basic Multilingual Plane has twice
      as many code units as characters. */
  lemma {:induction false} AstralLength(text: string)
    requires forall i | 0 <= i < |text| :: text[i] as int >= 0x1_0000
    ensures Utf16Length(text) == 2 * |text|
    decreases |text|
  {
    if text != [] {
      var init := text[..|text| - 1];
      assert forall i | 0 <= i < |init| :: init[i] == text[i];
      AstralLength(init);
    }
  }

  /** `s.startsWith(prefix)`. */
  predicate StartsWith(s: string, prefix: string) {
    |prefix| <= |s| && s[..|prefix|] == prefix
  }

  /** sub occurs in s starting at index i. */
  predicate OccursAt(s: string, sub: string, i: nat) {
    i + |sub| <= |s| && s[i..i + |sub|] == sub
  }

  /** JavaScript's `s.includes(sub)`: sub occurs in s as a contiguous run. */
  predicate Includes(s: string, sub: string) {
    exists i: nat | i <= |s| :: OccursAt(s, sub, i)
  }

  /** A string that contains sub somewhere, with anything before and after,
      includes it; in particular every string includes itself. */
  lemma IncludesInside(before: string, sub: string, after: string)
    ensures Includes(before + sub + after, sub)
  {
    var s := before + sub + after;
    assert OccursAt(s, sub, |before|);
  }

  /** Nothing shorter than sub includes it; in particular `''` includes
      nothing but `''`. */
  lemma IncludesNeedsLength(s: string, sub: string)
    requires Includes(s, sub)
    ensures |sub| <= |s|
  {
  }
}

=== FILE: db.dfy ===
/** The metadata layer of lib/db.ts over an abstract Redis: a map from token
    to (record, expiry in milliseconds), the `cleanup_schedule` sorted set, and
    whether the module-level client was created at all. JSON encoding of a
    record is taken as an injective encoding, so a record reads back as the
    record that was written. */
module Db {
  import opened Common

  /** `SET ... EX 900`: a record stays readable for 900 seconds. */
  const TtlSeconds := 900
  const TtlMillis := TtlSeconds * 1000
  /** `15 * 60 * 1000`: the delay from a save to the score of its cleanup member. */
  const CleanupDelayMillis := 15 * 60 * 1000
  /** Message of the error saveMetadata throws when there is no client. */
  const NotInitialized := "Redis client not initialized"

  /** The JSON object stored under a token. Fields a route may leave
      `undefined` are optional; `textContent` is only written by text shares. */
  datatype FileMetadata = FileMetadata(
    token: string,
    originalName: Option<string>,
    mimeType: string,
    size: Option<int>,
    filePath: Option<string>,
    fileKey: Option<string>,
    textContent: Option<string>,
    createdAt: int)

  /** A member of `cleanup_schedule` as the sweep parses it: a JSON object with
      its `key` and `token` fields (None when missing or not a string), or a
      string on which `JSON.parse` throws or whose destructuring throws (`null`). */
  datatype Member = Pair(key: Option<string>, token: Option<string>) | Unparseable(raw: string)

  /** A stored record and the instant (ms) from which Redis no longer returns it. */
  datatype Entry = Entry(record: FileMetadata, expiresAt: int)

  /** connected: the module-level client exists (REDIS_URL was set). */
  datatype Store = Store(connected: bool, records: map<string, Entry>, schedule: map<Member, int>)

  /** The record under token has not yet reached its expiry at now. */
  predicate Live(s: Store, token: string, now: int) {
    token in s.records && now < s.records[token].expiresAt
  }

  /** Every stored record sits under its own token. */
  predicate WellKeyed(s: Store) {
    forall t | t in s.records :: s.records[t].record.token == t
  }

  /** The member saveMetadata schedules for a record: `{key: fileKey, token}`. */
  function CleanupMember(m: FileMetadata): Member {
    Pair(m.fileKey, Some(m.token))
  }

  /** `saveMetadata(m)` at time now. setCall and zaddCall are what the two Redis writes
      do; the metadata write comes first, so a failing schedule write leaves the
      record stored without its cleanup member. */
  function SaveMetadata(s: Store, m: FileMetadata, now: int, setCall: Call, zaddCall: Call): (r: (Store, Call))
    ensures r.0.connected == s.connected
    ensures r.1.Returns? <==> s.connected && setCall.Returns? && (Truthy(m.fileKey) ==> zaddCall.Returns?)
    ensures !s.connected ==> r == (s, Throws(NotInitialized))
    ensures r.0 == s || (s.connected && setCall.Returns?)
    ensures forall t | t in r.0.records && t != m.token :: t in s.records && r.0.records[t] == s.records[t]
    ensures forall t | t in s.records && t != m.token :: t in r.0.records
    ensures WellKeyed(s) ==> WellKeyed(r.0)
  {
    if !s.connected then (s, Throws(NotInitialized))
    else if setCall.Throws? then (s, setCall)
    else
      var written := s.(records := s.records[m.token := Entry(m, now + TtlMillis)]);
      if !Truthy(m.fileKey) then (written, Returns)
      else if zaddCall.Throws? then (written, zaddCall)
      else (written.(schedule := written.schedule[CleanupMember(m) := now + CleanupDelayMillis]), Returns)
  }

  /** `getMetadata(token)` at time now: the live record, or None when there is
      no client or the token is unknown or expired. */
  function GetMetadata(s: Store, token: string, now: int): (r: Option<FileMetadata>)
    ensures r.Some? <==> s.connected && Live(s, token, now)
    ensures r.Some? ==> r.value == s.records[token].record
    ensures r.Some? && WellKeyed(s) ==> r.value.token == token
  {
    if s.connected && Live(s, token, now) then Some(s.records[token].record) else None
  }

  /** Redis' own reclamation of expired keys; the model keeps expired entries
      until this is applied, which changes nothing a reader can observe. */
  function Evict(s: Store, now: int): (r: Store)
    ensures forall t | t in r.records :: Live(s, t, now) && r.records[t] == s.records[t]
    ensures forall t | Live(s, t, now) :: t in r.records
    ensures r.connected == s.connected && r.schedule == s.schedule
  {
    s.(records := map t | t in s.records && now < s.records[t].expiresAt :: s.records[t])
  }

  /** Expired records read exactly as records never stored: evicting them
      changes no lookup. */
  lemma EvictUnobservable(s: Store, now: int, token: string)
    ensures GetMetadata(Evict(s, now), token, now) == GetMetadata(s, token, now)
  {
  }

  /** Until its expiry, a saved record reads back unchanged, whatever the
      schedule write did. */
  lemma SaveThenGet(s: Store, m: FileMetadata, now: int, setCall: Call, zaddCall: Call, later: int)
    requires s.connected && setCall.Returns?
    requires later < now + TtlMillis
    ensures GetMetadata(SaveMetadata(s, m, now, setCall, zaddCall).0, m.token, later) == Some(m)
  {
  }

  /** From its expiry on, a saved record reads as None, exactly as it would
      had it never been stored. */
  lemma SaveExpires(s: Store, m: FileMetadata, now: int, setCall: Call, zaddCall: Call, later: int)
    requires s.connected && setCall.Returns?
    requires later >= now + TtlMillis
    ensures var r := SaveMetadata(s, m, now, setCall, zaddCall).0;
            && GetMetadata(r, m.token, later) == None
            && GetMetadata(r, m.token, later) == GetMetadata(r.(records := r.records - {m.token}), m.token, later)
  {
  }

  /** A returning `SET ... EX 900` stores the record under its token with an
      expiry 900 seconds after the save, whatever the schedule write does. */
  lemma SetWritesEntry(s: Store, m: FileMetadata, now: int, zaddCall: Call)
    requires s.connected
    ensures SaveMetadata(s, m, now, Returns, zaddCall).0.records == s.records[m.token := Entry(m, now + TtlMillis)]
  {
  }

  /** A second save under the same token silently replaces the first record and
      its expiry: the stored entries are those of saving the second alone. */
  lemma LastWriteWins(s: Store, m1: FileMetadata, m2: FileMetadata, t1: int, t2: int, later: int)
    requires s.connected && m1.token == m2.token
    requires t2 <= later < t2 + TtlMillis
    ensures var first := SaveMetadata(s, m1, t1, Returns, Returns).0;
            && SaveMetadata(first, m2, t2, Returns, Returns).0.records == SaveMetadata(s, m2, t2, Returns, Returns).0.records
            && GetMetadata(SaveMetadata(first, m2, t2, Returns, Returns).0, m2.token, later) == Some(m2)
  {
    var first := SaveMetadata(s, m1, t1, Returns, Returns).0;
    var entry := Entry(m2, t2 + TtlMillis);
    SetWritesEntry(s, m1, t1, Returns);
    SetWritesEntry(first, m2, t2, Returns);
    SetWritesEntry(s, m2, t2, Returns);
    assert s.records[m1.token := Entry(m1, t1 + TtlMillis)][m2.token := entry] == s.records[m2.token := entry];
    SaveThenGet(first, m2, t2, Returns, Returns, later);
  }

  /** A successful save adds the member `{key, token}` scored save time plus
      fifteen minutes if and only if the record has a truthy fileKey; without
      one the schedule is left exactly as it was. */
  lemma ScheduledIffFileKey(s: Store, m: FileMetadata, now: int)
    requires s.connected
    ensures var r := SaveMetadata(s, m, now, Returns, Returns).0;
            && (Truthy(m.fileKey) ==> CleanupMember(m) in r.schedule && r.schedule[CleanupMember(m)] == now + CleanupDelayMillis)
            && (!Truthy(m.fileKey) ==> r.schedule == s.schedule)
            && r.schedule.Keys <= s.schedule.Keys + {CleanupMember(m)}
            && (forall x | x in s.schedule && x != CleanupMember(m) :: x in r.schedule && r.schedule[x] == s.schedule[x])
  {
  }

  /** The two writes are not atomic: when the schedule write of a record with a
      fileKey fails, the save throws, yet the record is stored and readable and
      no cleanup member was added. */
  lemma PartialSave(s: Store, m: FileMetadata, now: int, message: string)
    requires s.connected && Truthy(m.fileKey)
    ensures var r := SaveMetadata(s, m, now, Returns, Throws(message));
            && r.1 == Throws(message)
            && GetMetadata(r.0, m.token, now) == Some(m)
            && r.0.schedule == s.schedule
  {
  }

  /** Without a client every lookup is None. */
  lemma GetWithoutClient(s: Store, token: string, now: int)
    requires !s.connected
    ensures GetMetadata(s, token, now) == None
  {
  }

  /** The cleanup member and the record expire together: the member's score is
      the record's expiry, so the member becomes due exactly when the record
      stops being readable. */
  lemma CleanupAlignedWithExpiry(s: Store, m: FileMetadata, now: int, later: int)
    requires s.connected && Truthy(m.fileKey)
    ensures var r := SaveMetadata(s, m, now, Returns, Returns).0;
            r.schedule[CleanupMember(m)] <= later <==> GetMetadata(r, m.token, later) == None
  {
  }

  /** Saving a record with a different fileKey under a token already in use
      leaves the old cleanup member in place, so the old blob is still swept. */
  lemma OverwriteKeepsOldMember(s: Store, m1: FileMetadata, m2: FileMetadata, t1: int, t2: int)
    requires s.connected && m1.token == m2.token && Truthy(m1.fileKey) && m1.fileKey != m2.fileKey
    ensures var first := SaveMetadata(s, m1, t1, Returns, Returns).0;
            var second := SaveMetadata(first, m2, t2, Returns, Returns).0;
            && CleanupMember(m1) in second.schedule
            && second.schedule[CleanupMember(m1)] == t1 + CleanupDelayMillis
            && GetMetadata(second, m1.token, t2) == Some(m2)
  {
  }
}

=== FILE: exchange.dfy ===
/** The share lifecycle across the handlers: a code minted by one user is
    typed by another, looked up, and read back until its record expires; an
    uploaded blob's cleanup member falls due exactly when its record stops
    being readable, and a sweep from then on, over the schedule the upload
    left, asks for its deletion. */
module Exchange {
  import opened Common
  import opened Tokens
  import opened Db
  import opened SortedSet
  import opened Route
  import ShareText
  import Upload
  import Retrieve
  import Cleanup
  import opened Receiver

  /** The browser asking the retrieve route about a code at time now. */
  function AskServer(s: Store, now: int): string -> Lookup {
    (t: string) => Answered(Retrieve.Post(s, Some(Some(t)), now, Returns))
  }

  /** Round trip of a text share: the receiver who types the returned code
      before expiry can press "Find File", and finds the text with its
      synthesised description and no path. */
  lemma ShareTextThenReceive(s: Store, text: string, byteSize: nat, env: Env, st: ReceiverState, later: int)
    requires s.connected && ShareText.Acceptable(Some(text))
    requires env.setCall.Returns? && env.increment.Returns?
    requires !st.loading && env.now <= later < env.now + TtlMillis
    ensures var r := ShareText.Post(s, Some(Some(text)), byteSize, env);
            && r.reply.Ok?
            && CanCheck(OnChange(st, r.reply.body))
            && CheckFile(OnChange(st, r.reply.body), AskServer(r.store, later)).0.fileData
               == Some(Retrieve.PublicView(ShareText.TextRecord(r.reply.body, text, byteSize, env.now)))
            && CheckFile(OnChange(st, r.reply.body), AskServer(r.store, later)).0.error == None
  {
    var r := ShareText.Post(s, Some(Some(text)), byteSize, env);
    SanitiseToken(r.reply.body);
  }

  /** After expiry the route answers the returned code exactly as it answers
      a code that was never issued, and the receiver shows the generic
      failure message. */
  lemma ExpiredShareLooksUnissued(s: Store, text: string, byteSize: nat, env: Env, st: ReceiverState, later: int, unissued: string)
    requires s.connected && ShareText.Acceptable(Some(text))
    requires env.setCall.Returns? && env.increment.Returns?
    requires later >= env.now + TtlMillis
    requires unissued != "" && unissued !in s.records && unissued != MintToken(env.draw)
    ensures var r := ShareText.Post(s, Some(Some(text)), byteSize, env);
            && Retrieve.Post(r.store, Some(Some(r.reply.body)), later, Returns)
               == Retrieve.Post(r.store, Some(Some(unissued)), later, Returns)
               == Error(404, Retrieve.InvalidToken)
            && CheckFile(OnChange(st, r.reply.body), AskServer(r.store, later)).0.fileData == None
            && CheckFile(OnChange(st, r.reply.body), AskServer(r.store, later)).0.error == Some(LookupFailed)
  {
    var r := ShareText.Post(s, Some(Some(text)), byteSize, env);
    var token := r.reply.body;
    SanitiseToken(token);
    assert !Live(r.store, token, later);
    assert unissued !in r.store.records;
    assert AskServer(r.store, later)(token) == Answered(Error(404, Retrieve.InvalidToken));
  }

  /** For an upload with a truthy key, the cleanup member is due at exactly the
      instants at which the code no longer finds the record, and a sweep at any
      instant from expiry on, over the schedule the upload left, lists it and
      asks UploadThing to delete the key. */
  lemma UploadCleanupFollowsExpiry(s: Store, contentType: string, body: Upload.UploadBody, env: Env, later: nat, items: seq<Db.Member>)
    requires Truthy(body.key)
    requires Upload.Post(s, Some(contentType), Some(body), env).reply.Ok?
    requires IsRangeListing(Upload.Post(s, Some(contentType), Some(body), env).store.schedule, 0, later, items)
    ensures var r := Upload.Post(s, Some(contentType), Some(body), env);
            var member := Pair(body.key, Some(r.reply.body));
            && member in r.store.schedule
            && (Cleanup.Due(r.store.schedule[member], later)
                <==> Retrieve.Post(r.store, Some(Some(r.reply.body)), later, Returns) == Error(404, Retrieve.InvalidToken))
            && (later >= env.now + TtlMillis ==> body.key.value in Cleanup.TruthyKeys(items))
  {
    var r := Upload.Post(s, Some(contentType), Some(body), env);
    var member := Pair(body.key, Some(r.reply.body));
    if later >= env.now + TtlMillis {
      assert member in items;
      var i :| 0 <= i < |items| && items[i] == member;
      Cleanup.TruthyKeysMembers(items);
    }
  }
}

=== FILE: receiver.dfy ===
/** The code-entry logic of components/FileReceiver.tsx: the input sanitiser
    (`replace(/[^0-9]/g, '').slice(0, 6)`), the button's enabled state, and
    what `checkFile` does with the lookup's outcome. Rendering is left out. */
module Receiver {
  import opened Common
  import opened Tokens
  import opened Retrieve

  /** Number of digits of a complete code. */
  const CodeLength := 6
  const LookupFailed := "Invalid code or file expired."

  /** The digits of s, in order: `s.replace(/[^0-9]/g, '')`. */
  function DigitsOf(s: string): (d: string)
    ensures AllDigits(d) && |d| <= |s|
  {
    if s == [] then []
    else (if IsDigit(s[0]) then [s[0]] else []) + DigitsOf(s[1..])
  }

  /** Exactly the digits that occur in s survive. */
  lemma {:induction false} DigitsOfMembers(s: string)
    ensures forall c :: c in DigitsOf(s) <==> c in s && IsDigit(c)
    decreases |s|
  {
    if s != [] {
      DigitsOfMembers(s[1..]);
      assert forall c :: c in s <==> c == s[0] || c in s[1..];
    }
  }

  /** Removing the non-digits of a concatenation is removing them from each
      part: the digits keep their input order. */
  lemma {:induction false} DigitsOfAppend(a: string, b: string)
    ensures DigitsOf(a + b) == DigitsOf(a) + DigitsOf(b)
    decreases |a|
  {
    if a == [] {
      assert a + b == b;
    } else {
      assert (a + b)[0] == a[0];
      assert (a + b)[1..] == a[1..] + b;
      DigitsOfAppend(a[1..], b);
    }
  }

  /** A string of digits has nothing to remove. */
  lemma {:induction false} DigitsOfDigits(s: string)
    requires AllDigits(s)
    ensures DigitsOf(s) == s
    decreases |s|
  {
    if s != [] {
      DigitsOfDigits(s[1..]);
    }
  }

  /** The `onChange` sanitiser: the first min(6, #digits) digits of the input. */
  function Sanitise(s: string): (r: string)
    ensures AllDigits(r) && |r| <= CodeLength
    ensures |r| == if |DigitsOf(s)| < CodeLength then |DigitsOf(s)| else CodeLength
    ensures r == DigitsOf(s)[..|r|]
  {
    var digits := DigitsOf(s);
    if |digits| <= CodeLength then digits else digits[..CodeLength]
  }

  /** Sanitising twice is sanitising once. */
  lemma SanitiseIdempotent(s: string)
    ensures Sanitise(Sanitise(s)) == Sanitise(s)
  {
    DigitsOfDigits(Sanitise(s));
  }

  /** Removing the non-digits skips a non-digit wherever it stands. */
  lemma DigitsOfSkip(before: string, c: char, after: string)
    requires !IsDigit(c)
    ensures DigitsOf(before + [c] + after) == DigitsOf(before + after)
  {
    assert DigitsOf([c]) == [] by {
      assert [c][1..] == [];
    }
    DigitsOfAppend(before + [c], after);
    DigitsOfAppend(before, [c]);
    DigitsOfAppend(before, after);
  }

  /** A typed non-digit is ignored wherever it appears. */
  lemma SanitiseIgnoresNonDigit(before: string, c: char, after: string)
    requires !IsDigit(c)
    ensures Sanitise(before + [c] + after) == Sanitise(before + after)
  {
    DigitsOfSkip(before, c, after);
  }

  /** Once six digits are in, anything typed after them is ignored. */
  lemma SanitiseKeepsFirstSix(code: string, rest: string)
    requires IsTokenShaped(code)
    ensures Sanitise(code + rest) == code
  {
    DigitsOfAppend(code, rest);
    DigitsOfDigits(code);
    assert (code + DigitsOf(rest))[..CodeLength] == code;
  }

  /** A minted token survives the sanitiser unchanged. */
  lemma SanitiseToken(code: string)
    requires IsTokenShaped(code)
    ensures Sanitise(code) == code
  {
    SanitiseKeepsFirstSix(code, []);
    assert code + [] == code;
  }

  /** The component's state: the code typed so far, whether a lookup is in
      flight, the record found, and the error shown. */
  datatype ReceiverState = ReceiverState(token: string, loading: bool, fileData: Option<PublicMetadata>, error: Option<string>)

  /** What the browser got back from `fetch('/api/retrieve')`: the route's
      reply, or nothing when the request itself failed. */
  datatype Lookup = Answered(reply: Reply<PublicMetadata>) | Unreachable

  /** `onChange` with the input's new value: store the sanitised code, and
      clear the error once it is complete. */
  function OnChange(st: ReceiverState, input: string): (r: ReceiverState)
    ensures r.token == Sanitise(input)
    ensures r.loading == st.loading && r.fileData == st.fileData
    ensures r.error == (if |r.token| == CodeLength then None else st.error)
  {
    var code := Sanitise(input);
    st.(token := code, error := if |code| == CodeLength then None else st.error)
  }

  /** The "Find File" button is enabled: a complete code and no lookup in flight. */
  predicate CanCheck(st: ReceiverState) {
    |st.token| == CodeLength && !st.loading
  }

  /** `checkFile`, run to completion. lookup gives the outcome of asking the
      route about a code. The result's second part is the code a request was
      sent for, None when no request was made. */
  function CheckFile(st: ReceiverState, lookup: string -> Lookup): (r: (ReceiverState, Option<string>))
    ensures |st.token| < CodeLength <==> r == (st, None)
    ensures |st.token| >= CodeLength ==> r.1 == Some(st.token) && !r.0.loading && r.0.token == st.token
    ensures |st.token| >= CodeLength ==>
              (r.0.fileData.Some? <==> lookup(st.token).Answered? && lookup(st.token).reply.Ok?)
    ensures r.0.fileData.Some? && r.1.Some? ==> r.0.error == None && Answered(Ok(r.0.fileData.value)) == lookup(st.token)
    ensures r.1.Some? && r.0.fileData.None? ==> r.0.error == Some(LookupFailed)
  {
    if |st.token| < CodeLength then (st, None)
    else
      var outcome := lookup(st.token);
      if outcome.Answered? && outcome.reply.Ok? then
        (st.(loading := false, error := None, fileData := Some(outcome.reply.body)), Some(st.token))
      else
        (st.(loading := false, error := Some(LookupFailed), fileData := None), Some(st.token))
  }

  /** Every failed lookup looks the same to the user: a 400, a 404, a 500 and
      an unreachable server all leave no record and the same message. */
  lemma FailuresLookAlike(st: ReceiverState, lookup1: string -> Lookup, lookup2: string -> Lookup)
    requires |st.token| == CodeLength
    requires !(lookup1(st.token).Answered? && lookup1(st.token).reply.Ok?)
    requires !(lookup2(st.token).Answered? && lookup2(st.token).reply.Ok?)
    ensures CheckFile(st, lookup1) == CheckFile(st, lookup2)
  {
  }
}

=== FILE: retrieve.dfy ===
/** `POST /api/retrieve`: look a token up and return the record without its
    internal `filePath`. The handler only reads: it returns a reply and no
    store, so it cannot change the records or the schedule. */
module Retrieve {
  import opened Common
  import opened Db

  const TokenRequired := "Token is required"
  const InvalidToken := "Invalid token"
  const ServerError := "Server error"

  /** The record as the client sees it: every field but `filePath`. */
  datatype PublicMetadata = PublicMetadata(
    token: string,
    originalName: Option<string>,
    mimeType: string,
    size: Option<int>,
    fileKey: Option<string>,
    textContent: Option<string>,
    createdAt: int)

  /** The reply body: the record with its internal path removed. */
  function PublicView(m: FileMetadata): (v: PublicMetadata)
    ensures v.token == m.token && v.originalName == m.originalName && v.mimeType == m.mimeType
    ensures v.size == m.size && v.fileKey == m.fileKey && v.textContent == m.textContent && v.createdAt == m.createdAt
  {
    PublicMetadata(m.token, m.originalName, m.mimeType, m.size, m.fileKey, m.textContent, m.createdAt)
  }

  /** Puts a `filePath` back into a public view: the inverse of PublicView. */
  function WithFilePath(v: PublicMetadata, filePath: Option<string>): (m: FileMetadata)
    ensures m.filePath == filePath && PublicView(m) == v
  {
    FileMetadata(v.token, v.originalName, v.mimeType, v.size, filePath, v.fileKey, v.textContent, v.createdAt)
  }

  /** The view drops `filePath` and nothing else: restoring the path gives the
      record back, and two records have the same view exactly when they differ
      at most in their path. */
  lemma PublicViewDropsOnlyFilePath(a: FileMetadata, b: FileMetadata)
    ensures WithFilePath(PublicView(a), a.filePath) == a
    ensures PublicView(a) == PublicView(b) <==> a.(filePath := b.filePath) == b
  {
  }

  /** The handler at time now. body is None when `req.json()` throws; its
      value is the `token` field, None when missing or not a string. getCall
      is what the Redis `GET` does, when it is issued. */
  function Post(s: Store, body: Option<Option<string>>, now: int, getCall: Call): (r: Reply<PublicMetadata>)
    ensures body.Some? && !Truthy(body.value) <==> r == Error(400, TokenRequired)
    ensures r.Ok? <==> body.Some? && Truthy(body.value) && s.connected && getCall.Returns? && Live(s, body.value.value, now)
    ensures r.Ok? ==> r.body == PublicView(s.records[body.value.value].record)
    ensures r.Ok? && WellKeyed(s) ==> r.body.token == body.value.value
    ensures r.Error? ==> r.status in {400, 404, 500}
    // a thrown `GET` or unreadable body is a 500; a missing client reads as not found
    ensures r == Error(500, ServerError) <==> body.None? || (Truthy(body.value) && s.connected && getCall.Throws?)
    ensures r.Error? && r.status == 404 ==> r == Error(404, InvalidToken)
  {
    match body
    case None => Error(500, ServerError)
    case Some(token) =>
      if !Truthy(token) then Error(400, TokenRequired)
      // without a client getMetadata answers null without calling Redis
      else if s.connected && getCall.Throws? then Error(500, ServerError)
      else
        match GetMetadata(s, token.value, now)
        case None => Error(404, InvalidToken)
        case Some(m) => Ok(PublicView(m))
  }

  /** An expired token and a token never stored get the same reply, so the
      client cannot tell them apart. */
  lemma NotFoundParity(s: Store, expired: string, unknown: string, now: int)
    requires s.connected && expired != "" && unknown != ""
    requires expired in s.records && s.records[expired].expiresAt <= now
    requires unknown !in s.records
    ensures Post(s, Some(Some(expired)), now, Returns) == Post(s, Some(Some(unknown)), now, Returns) == Error(404, InvalidToken)
  {
  }

  /** A live token is answered with the public view of its stored record. */
  lemma RetrieveRepeatable(s: Store, token: string, now: int)
    requires s.connected && token != "" && Live(s, token, now)
    ensures Post(s, Some(Some(token)), now, Returns) == Ok(PublicView(s.records[token].record))
  {
  }
}

=== FILE: route.dfy ===
/** What the two POST handlers that store a share have in common: the
    environment of one request (clock, random draw, and the outcome of each
    external call) and the result of handling it. */
module Route {
  import opened Common
  import opened Tokens
  import opened Db

  /** One request's environment: `Date.now()` (one value for every clock read
      of the request), the draw of `crypto.randomInt`, and what the Redis
      `SET`, the Redis `ZADD` and `incrementTotalFiles` do if they are called. */
  datatype Env = Env(now: nat, draw: TokenDraw, setCall: Call, zaddCall: Call, increment: Call)

  /** The store after the request, the reply, and whether the file counter's
      increment was called. */
  datatype Step<+T> = Step(store: Store, reply: Reply<T>, incremented: bool)
}

=== FILE: share_text.dfy ===
/** `POST /api/share-text`: validate the text, mint a token, store a
    synthesised text record under it, then count the share. */
module ShareText {
  import opened Common
  import opened Tokens
  import opened Db
  import opened Route

  /** The cap on `text.length`, in UTF-16 code units; a text of exactly this
      length is accepted. */
  const MaxTextLength := 100000

  const TextRequired := "Text content is required"
  const TextTooLong := "Text is too long (max 100KB)"
  const ShareFailed := "Failed to share text"

  /** The record a text share stores. byteSize is `new Blob([text]).size`, the
      UTF-8 byte count of the text, taken as given: it is a separate quantity
      from the length the cap is checked on. */
  function TextRecord(token: string, text: string, byteSize: nat, now: int): (m: FileMetadata)
    ensures m.token == token && m.textContent == Some(text) && m.createdAt == now
    ensures !Truthy(m.fileKey)
    // the fixed description of a text share; the empty path locates no content
    ensures m.originalName == Some("Text Snippet") && m.mimeType == "text/plain"
    ensures m.filePath == Some("") && m.size == Some(byteSize)
  {
    FileMetadata(token, Some("Text Snippet"), "text/plain", Some(byteSize), Some(""), None, Some(text), now)
  }

  /** The request passes both checks: a non-empty string, at most the cap long. */
  predicate Acceptable(text: Option<string>) {
    Truthy(text) && Utf16Length(text.value) <= MaxTextLength
  }

  /** The handler. body is None when `req.json()` throws; its value is the
      `text` field, None when missing or not a string. byteSize is the Blob size. */
  function Post(s: Store, body: Option<Option<string>>, byteSize: nat, env: Env): (r: Step<string>)
    // a rejected request is a 400 and stores nothing
    ensures r.reply.Status() == 400 <==> body.Some? && !Acceptable(body.value)
    ensures body.Some? && !Truthy(body.value) ==> r.reply == Error(400, TextRequired)
    ensures r.reply.Status() == 400 || body.None? ==> r.store == s && !r.incremented
    // a save that throws before its write (no client, or a failing `SET`) stores nothing
    ensures !(s.connected && env.setCall.Returns?) ==> r.store == s
    // the only other failure is a 500
    ensures r.reply.Error? ==> r.reply.status in {400, 500}
    // a text share never touches the cleanup schedule and keeps every other token's record
    ensures r.store.schedule == s.schedule
    ensures forall t | t in s.records && t != MintToken(env.draw) :: t in r.store.records && r.store.records[t] == s.records[t]
    // the counter is bumped exactly when the record was stored
    ensures r.incremented <==> body.Some? && Acceptable(body.value) && s.connected && env.setCall.Returns?
    ensures r.incremented ==> GetMetadata(r.store, MintToken(env.draw), env.now)
                              == Some(TextRecord(MintToken(env.draw), body.value.value, byteSize, env.now))
    // success returns the token the text is stored under, readable for the whole TTL
    ensures r.reply.Ok? <==> r.incremented && env.increment.Returns?
    ensures r.reply.Ok? ==> r.reply.body == MintToken(env.draw) && IsTokenShaped(r.reply.body)
    ensures r.reply.Ok? ==> forall later: int | env.now <= later < env.now + TtlMillis ::
                              GetMetadata(r.store, r.reply.body, later) == Some(TextRecord(r.reply.body, body.value.value, byteSize, env.now))
  {
    match body
    case None => Step(s, Error(500, ShareFailed), false)
    case Some(text) =>
      if !Truthy(text) then Step(s, Error(400, TextRequired), false)
      else if Utf16Length(text.value) > MaxTextLength then Step(s, Error(400, TextTooLong), false)
      else
        var token := MintToken(env.draw);
        var (saved, outcome) := SaveMetadata(s, TextRecord(token, text.value, byteSize, env.now), env.now, env.setCall, env.zaddCall);
        if outcome.Throws? then Step(saved, Error(500, ShareFailed), false)
        else if env.increment.Throws? then Step(saved, Error(500, ShareFailed), true)
        else Step(saved, Ok(token), true)
  }

  /** The cap is inclusive: 100000 characters of the Basic Multilingual Plane
      pass, one more is refused. */
  lemma CapBoundary(s: Store, text: string, byteSize: nat, env: Env)
    requires text != [] && forall i | 0 <= i < |text| :: text[i] as int < 0x1_0000
    ensures |text| == MaxTextLength ==> Post(s, Some(Some(text)), byteSize, env).reply != Error(400, TextTooLong)
    ensures |text| == MaxTextLength + 1 ==> Post(s, Some(Some(text)), byteSize, env) == Step(s, Error(400, TextTooLong), false)
  {
  }

  /** The cap counts UTF-16 code units, not characters: 50001 characters
      outside the Basic Multilingual Plane are refused. */
  lemma CapCountsCodeUnits(s: Store, text: string, byteSize: nat, env: Env)
    requires |text| == 50001 && forall i | 0 <= i < |text| :: text[i] as int >= 0x1_0000
    ensures Post(s, Some(Some(text)), byteSize, env) == Step(s, Error(400, TextTooLong), false)
  {
    AstralLength(text);
  }

  /** When the store write succeeds but the counter's increment throws, the
      client gets a 500 although the text is stored and retrievable. */
  lemma StoredDespiteCounterFailure(s: Store, text: string, byteSize: nat, env: Env)
    requires s.connected && Acceptable(Some(text)) && env.setCall.Returns? && env.increment.Throws?
    ensures var r := Post(s, Some(Some(text)), byteSize, env);
            && r.reply == Error(500, ShareFailed)
            && GetMetadata(r.store, MintToken(env.draw), env.now) == Some(TextRecord(MintToken(env.draw), text, byteSize, env.now))
  {
  }
}

=== FILE: sorted_set.dfy ===
/** The two Redis sorted-set commands the cleanup schedule uses, over an
    abstract set of members each carrying one integer score: `ZRANGEBYSCORE`
    (which members are due, in score order) and `ZREM` (drop members). */
module SortedSet {

  predicate Distinct<M(==)>(s: seq<M>) {
    forall i, j | 0 <= i < j < |s| :: s[i] != s[j]
  }

  /** items is a correct answer of `ZRANGEBYSCORE z lo hi`: every member whose
      score lies in the inclusive range [lo, hi], each exactly once, nothing
      else, in non-decreasing score order. Redis orders members of equal score
      by their bytes; this model leaves the order among equal scores open. */
  predicate IsRangeListing<M(==)>(z: map<M, int>, lo: int, hi: int, items: seq<M>) {
    && Distinct(items)
    && (forall i | 0 <= i < |items| :: items[i] in z && lo <= z[items[i]] <= hi)
    && (forall m | m in z && lo <= z[m] <= hi :: m in items)
    && (forall i, j | 0 <= i < j < |items| :: z[items[i]] <= z[items[j]])
  }

  /** `ZREM z items...`: the members listed are gone, every other member keeps its score. */
  function Remove<M(==)>(z: map<M, int>, items: seq<M>): (r: map<M, int>)
    ensures forall m | m in r :: m in z && m !in items && r[m] == z[m]
    ensures forall m | m in z && m !in items :: m in r
  {
    map m | m in z && m !in items :: z[m]
  }

  /** A listing is empty exactly when no member's score lies in the range. */
  lemma EmptyListing<M>(z: map<M, int>, lo: int, hi: int, items: seq<M>)
    requires IsRangeListing(z, lo, hi, items)
    ensures items == [] <==> forall m | m in z :: !(lo <= z[m] <= hi)
  {
    if items != [] {
      assert items[0] in z && lo <= z[items[0]] <= hi;
    }
  }

  /** Two listings of the same range hold the same members. */
  lemma ListingsAgree<M>(z: map<M, int>, lo: int, hi: int, a: seq<M>, b: seq<M>)
    requires IsRangeListing(z, lo, hi, a) && IsRangeListing(z, lo, hi, b)
    ensures forall m :: m in a <==> m in b
  {
  }

  /** Every non-empty finite set of members has one of least score. */
  lemma {:induction false} LeastScoreExists<M>(z: map<M, int>, pending: set<M>)
    requires pending != {} && pending <= z.Keys
    ensures exists m :: m in pending && forall m' | m' in pending :: z[m] <= z[m']
    decreases pending
  {
    var x :| x in pending;
    if pending != {x} {
      var rest := pending - {x};
      LeastScoreExists(z, rest);
      var y :| y in rest && forall m' | m' in rest :: z[y] <= z[m'];
      if z[x] <= z[y] {
        assert forall m' | m' in pending :: z[x] <= z[m'];
      } else {
        assert forall m' | m' in pending :: z[y] <= z[m'];
      }
    }
  }

  /** `ZRANGEBYSCORE z lo hi`, computed by repeatedly taking a due member of
      least score: a correct listing exists for every sorted set and range. */
  method RangeByScore<M(==)>(z: map<M, int>, lo: int, hi: int) returns (items: seq<M>)
    ensures IsRangeListing(z, lo, hi, items)
  {
    var pending := set m | m in z && lo <= z[m] <= hi;
    items := [];
    while pending != {}
      invariant pending <= z.Keys
      invariant forall m | m in pending :: lo <= z[m] <= hi
      invariant forall i | 0 <= i < |items| :: items[i] in z && lo <= z[items[i]] <= hi && items[i] !in pending
      invariant forall m | m in z && lo <= z[m] <= hi :: m in pending || m in items
      invariant Distinct(items)
      invariant forall i, j | 0 <= i < j < |items| :: z[items[i]] <= z[items[j]]
      invariant forall i, m | 0 <= i < |items| && m in pending :: z[items[i]] <= z[m]
      decreases pending
    {
      LeastScoreExists(z, pending);
      var next :| next in pending && forall m' | m' in pending :: z[next] <= z[m'];
      items := items + [next];
      pending := pending - {next};
    }
  }
}

=== FILE: tokens.dfy ===
/** The share token both upload routes mint:
    `crypto.randomInt(100000, 999999).toString()`. The random draw is an
    arbitrary value of the range randomInt promises; the decimal rendering is
    modelled exactly, with its inverse, so that the token format can be proved. */
module Tokens {

  /** Lower bound of the draw, inclusive. */
  const DrawMin := 100000
  /** Upper bound of the draw, EXCLUSIVE: randomInt never returns it. */
  const DrawMax := 999999

  /** A value `crypto.randomInt(100000, 999999)` can return. */
  type TokenDraw = n: int | DrawMin <= n < DrawMax witness DrawMin

  predicate IsDigit(c: char) {
    '0' <= c <= '9'
  }

  predicate AllDigits(s: string) {
    forall i | 0 <= i < |s| :: IsDigit(s[i])
  }

  /** What the receiver accepts as a complete code: six ASCII digits. */
  predicate IsTokenShaped(t: string) {
    |t| == 6 && AllDigits(t)
  }

  function DigitValue(c: char): (d: nat)
    requires IsDigit(c)
    ensures d < 10
  {
    c as int - '0' as int
  }

  function DigitChar(d: nat): (c: char)
    requires d < 10
    ensures IsDigit(c) && DigitValue(c) == d
  {
    ('0' as int + d) as char
  }

  function Pow10(k: nat): (p: nat)
    ensures p >= 1
  {
    if k == 0 then 1 else 10 * Pow10(k - 1)
  }

  /** `n.toString()` for a non-negative integer: its shortest decimal numeral,
      which starts with '0' only for zero itself. */
  function Decimal(n: nat): (s: string)
    ensures |s| >= 1 && AllDigits(s)
    ensures s[0] == '0' <==> n == 0
    ensures |s| == 1 <==> n < 10
    decreases n
  {
    if n < 10 then [DigitChar(n)]
    else Decimal(n / 10) + [DigitChar(n % 10)]
  }

  /** Reads a numeral of decimal digits back into the number it denotes. */
  function ParseDecimal(s: string): nat
    requires AllDigits(s)
  {
    if s == [] then 0
    else
      var init := s[..|s| - 1];
      assert forall i | 0 <= i < |init| :: init[i] == s[i];
      10 * ParseDecimal(init) + DigitValue(s[|s| - 1])
  }

  /** Parsing undoes rendering: `Decimal` loses nothing, so distinct draws
      give distinct tokens. */
  lemma {:induction false} DecimalRoundTrip(n: nat)
    ensures ParseDecimal(Decimal(n)) == n
    decreases n
  {
    if n >= 10 {
      var s := Decimal(n);
      assert s[..|s| - 1] == Decimal(n / 10);
      DecimalRoundTrip(n / 10);
    }
  }

  /** Rendering undoes parsing on canonical numerals (no leading zero unless
      the numeral is "0" itself): the other half of the round trip. */
  lemma {:induction false} ParseDecimalRoundTrip(s: string)
    requires |s| >= 1 && AllDigits(s)
    requires |s| > 1 ==> s[0] != '0'
    ensures Decimal(ParseDecimal(s)) == s
    decreases |s|
  {
    var init := s[..|s| - 1];
    var last := s[|s| - 1];
    assert forall i | 0 <= i < |init| :: init[i] == s[i];
    if |s| == 1 {
      assert DigitChar(DigitValue(last)) == last;
      assert s == [last];
    } else {
      ParseDecimalRoundTrip(init);
      var p := ParseDecimal(init);
      assert init[0] != '0';
      assert p != 0;
      var n := 10 * p + DigitValue(last);
      assert n / 10 == p && n % 10 == DigitValue(last);
      assert DigitChar(DigitValue(last)) == last;
      assert Decimal(n) == Decimal(p) + [last];
      assert s == init + [last];
    }
  }

  /** A number with exactly k + 1 decimal digits renders as k + 1 characters. */
  lemma {:induction false} DecimalLength(n: nat, k: nat)
    requires Pow10(k) <= n < Pow10(k + 1)
    ensures |Decimal(n)| == k + 1
    decreases k
  {
    if k > 0 {
      assert Pow10(k) == 10 * Pow10(k - 1);
      assert Pow10(k + 1) == 10 * Pow10(k);
      assert Pow10(k - 1) <= n / 10 < Pow10(k);
      DecimalLength(n / 10, k - 1);
    }
  }

  /** The token a route mints from a draw: six digits, no leading zero, and
      it reads back as the draw itself. */
  function MintToken(draw: TokenDraw): (t: string)
    ensures IsTokenShaped(t) && t[0] != '0'
    ensures ParseDecimal(t) == draw
  {
    assert Pow10(5) == 100000 && Pow10(6) == 1000000;
    DecimalLength(draw, 5);
    DecimalRoundTrip(draw);
    Decimal(draw)
  }

  /** Two draws give the same token only when they are the same draw. */
  lemma MintTokenInjective(a: TokenDraw, b: TokenDraw)
    ensures MintToken(a) == MintToken(b) <==> a == b
  {
  }

  /** Because the upper bound of randomInt is exclusive, "999999" is never
      minted, although it is a six-digit code the receiver accepts. */
  lemma NeverMintsAllNines(draw: TokenDraw)
    ensures MintToken(draw) != "999999"
  {
    AllNinesValue();
  }

  /** The numeral "999999" denotes 999999. */
  lemma AllNinesValue()
    ensures ParseDecimal("999999") == 999999
  {
    assert "999999"[..5] == "99999" && "99999"[..4] == "9999" && "9999"[..3] == "999";
    assert "999"[..2] == "99" && "99"[..1] == "9" && "9"[..0] == "";
    assert ParseDecimal("9") == 9;
    assert ParseDecimal("99") == 99;
    assert ParseDecimal("999") == 999;
    assert ParseDecimal("9999") == 9999;
    assert ParseDecimal("99999") == 99999;
  }

  /** A numeral of k digits denotes less than 10^k, and at least 10^(k-1)
      when it has no leading zero. */
  lemma {:induction false} ParseDecimalBounds(s: string)
    requires AllDigits(s)
    ensures ParseDecimal(s) < Pow10(|s|)
    ensures |s| >= 1 && s[0] != '0' ==> Pow10(|s| - 1) <= ParseDecimal(s)
    decreases |s|
  {
    if s != [] {
      var init := s[..|s| - 1];
      assert forall i | 0 <= i < |init| :: init[i] == s[i];
      ParseDecimalBounds(init);
      var p := ParseDecimal(init);
      var d := DigitValue(s[|s| - 1]);
      assert ParseDecimal(s) == 10 * p + d;
      assert Pow10(|s|) == 10 * Pow10(|init|);
      assert 10 * p + d < 10 * Pow10(|init|) by {
        assert p + 1 <= Pow10(|init|);
        assert 10 * (p + 1) <= 10 * Pow10(|init|);
      }
      if |s| >= 2 && s[0] != '0' {
        assert init[0] == s[0];
        assert Pow10(|s| - 1) == 10 * Pow10(|init| - 1);
        assert 10 * Pow10(|init| - 1) <= 10 * p;
      }
    }
  }

  /** Every six-digit code without a leading zero other than "999999" is
      minted by some draw: together with MintToken's contract, the minted
      tokens are exactly the numerals 100000..999998. */
  lemma MintTokenOnto(t: string)
    requires IsTokenShaped(t) && t[0] != '0' && t != "999999"
    ensures exists draw: TokenDraw :: MintToken(draw) == t
  {
    ParseDecimalRoundTrip(t);
    ParseDecimalBounds(t);
    var n := ParseDecimal(t);
    assert Pow10(5) == 100000 && Pow10(6) == 1000000;
    ParseDecimalRoundTrip("999999");
    AllNinesValue();
    assert Decimal(999999) == "999999";
    assert n != 999999;
    var draw: TokenDraw := n;
    assert MintToken(draw) == t;
  }
}

=== FILE: upload.dfy ===
/** `POST /api/upload`: after the browser has uploaded a file to UploadThing,
    it posts the file's `{url, name, size, key}`; the handler mints a token and
    stores a record mapping those fields, scheduling the blob for cleanup. */
module Upload {
  import opened Common
  import opened Tokens
  import opened Db
  import opened Route

  const JsonContentType := "application/json"
  const OctetStream := "application/octet-stream"
  const ExpectsJson := "This endpoint now expects JSON metadata from UploadThing"
  const UploadFailed := "Upload failed"
  const DatabaseFailed := "Database Failed: "

  /** The fields of the posted JSON body; a missing field is None. */
  datatype UploadBody = UploadBody(url: Option<string>, name: Option<string>, size: Option<int>, key: Option<string>)

  /** The record stored for an upload: the body's fields under their stored
      names, a fixed MIME type, nothing validated. */
  function FileRecord(token: string, body: UploadBody, now: int): (m: FileMetadata)
    ensures m.token == token && m.createdAt == now && m.textContent == None
    ensures m.originalName == body.name && m.size == body.size && m.filePath == body.url && m.fileKey == body.key
    ensures m.mimeType == OctetStream
  {
    FileMetadata(token, body.name, OctetStream, body.size, body.url, body.key, None, now)
  }

  /** The 502 message for a failed save or increment; an error thrown by Redis
      or the counter is an `Error`, so its message is used. */
  function DatabaseError(message: string): (e: string)
    ensures StartsWith(e, "Database Failed:")
    ensures |e| == |DatabaseFailed| + |message| && e[|DatabaseFailed|..] == message
  {
    DatabaseFailed + message
  }

  /** The handler. contentType is the `content-type` header (None when absent,
      read as `''`); body is None when `req.json()` throws. */
  function Post(s: Store, contentType: Option<string>, body: Option<UploadBody>, env: Env): (r: Step<string>)
    // the content-type gate: without "application/json" a 400, nothing stored
    ensures !Includes(contentType.GetOr(""), JsonContentType) ==> r == Step(s, Error(400, ExpectsJson), false)
    ensures r.reply.Error? && r.reply.status == 400 ==> !Includes(contentType.GetOr(""), JsonContentType)
    ensures body.None? ==> r.store == s && r.reply.Error? && r.reply.status in {400, 500}
    // a failed save or increment is a 502 whose message starts "Database Failed:"
    ensures r.reply.Error? && r.reply.status == 502 ==> StartsWith(r.reply.message, "Database Failed:")
    ensures Includes(contentType.GetOr(""), JsonContentType) && body.Some? && !r.reply.Ok? ==>
              r.reply.Error? && r.reply.status == 502 && StartsWith(r.reply.message, "Database Failed:")
    ensures r.reply.Error? ==> r.reply.status in {400, 500, 502}
    // every other token's record is left alone
    ensures forall t | t in s.records && t != MintToken(env.draw) :: t in r.store.records && r.store.records[t] == s.records[t]
    // success returns the token the mapped record is stored under
    ensures r.reply.Ok? <==> Includes(contentType.GetOr(""), JsonContentType) && body.Some?
                             && s.connected && env.setCall.Returns? && (Truthy(body.value.key) ==> env.zaddCall.Returns?)
                             && env.increment.Returns?
    ensures r.reply.Ok? ==> r.reply.body == MintToken(env.draw) && r.incremented
    // a save that throws before its write stores nothing and skips the counter
    ensures !(s.connected && env.setCall.Returns?) ==> r.store == s && !r.incremented
    // the writes are not undone: once the `SET` returned, the record stays readable
    // even behind a 502, and a failed `ZADD` leaves the blob with no cleanup member
    ensures Includes(contentType.GetOr(""), JsonContentType) && body.Some? && s.connected && env.setCall.Returns? ==>
              GetMetadata(r.store, MintToken(env.draw), env.now) == Some(FileRecord(MintToken(env.draw), body.value, env.now))
    ensures body.Some? && Truthy(body.value.key) && env.zaddCall.Throws? ==> r.store.schedule == s.schedule
    // the counter is called exactly when the save as a whole returned
    ensures r.incremented <==> Includes(contentType.GetOr(""), JsonContentType) && body.Some?
                               && s.connected && env.setCall.Returns? && (Truthy(body.value.key) ==> env.zaddCall.Returns?)
    ensures r.reply.Ok? ==> forall later: int | env.now <= later < env.now + TtlMillis ::
                              GetMetadata(r.store, r.reply.body, later) == Some(FileRecord(r.reply.body, body.value, env.now))
    // a cleanup member `{key, token}` is added if and only if the body's key is truthy
    ensures r.reply.Ok? && Truthy(body.value.key) ==>
              r.store.schedule == s.schedule[Pair(body.value.key, Some(r.reply.body)) := env.now + CleanupDelayMillis]
    ensures body.Some? && !Truthy(body.value.key) ==> r.store.schedule == s.schedule
  {
    if !Includes(contentType.GetOr(""), JsonContentType) then Step(s, Error(400, ExpectsJson), false)
    else
      match body
      case None => Step(s, Error(500, UploadFailed), false)
      case Some(fields) =>
        var token := MintToken(env.draw);
        var (saved, outcome) := SaveMetadata(s, FileRecord(token, fields, env.now), env.now, env.setCall, env.zaddCall);
        if outcome.Throws? then Step(saved, Error(502, DatabaseError(outcome.message)), false)
        else if env.increment.Throws? then Step(saved, Error(502, DatabaseError(env.increment.message)), true)
        else Step(saved, Ok(token), true)
  }

  /** A JSON content type with a charset parameter passes the gate, and so
      does any header that merely contains "application/json". */
  lemma CharsetPassesGate(s: Store, params: string, body: UploadBody, env: Env)
    requires s.connected && env.setCall.Returns? && env.zaddCall.Returns? && env.increment.Returns?
    ensures Post(s, Some(JsonContentType + params), Some(body), env).reply == Ok(MintToken(env.draw))
  {
    assert JsonContentType + params == [] + JsonContentType + params;
    IncludesInside([], JsonContentType, params);
  }

  /** Without a content-type header the request is refused. */
  lemma MissingHeaderRefused(s: Store, body: Option<UploadBody>, env: Env)
    ensures Post(s, None, body, env) == Step(s, Error(400, ExpectsJson), false)
  {
    if Includes("", JsonContentType) {
      IncludesNeedsLength("", JsonContentType);
    }
  }

  /** Missing fields are not rejected: a body with no fields at all is stored
      as a record whose name, size, path and key are all absent. */
  lemma EmptyBodyStored(s: Store, env: Env)
    requires s.connected && env.setCall.Returns? && env.increment.Returns?
    ensures var r := Post(s, Some(JsonContentType), Some(UploadBody(None, None, None, None)), env);
            && r.reply == Ok(MintToken(env.draw))
            && GetMetadata(r.store, MintToken(env.draw), env.now)
               == Some(FileMetadata(MintToken(env.draw), None, OctetStream, None, None, None, None, env.now))
            && r.store.schedule == s.schedule
  {
    IncludesInside([], JsonContentType, []);
    assert [] + JsonContentType + [] == JsonContentType;
  }

  /** Without a Redis client the upload fails with a 502 naming the cause. */
  lemma NoClientIs502(s: Store, body: UploadBody, env: Env)
    requires !s.connected
    ensures Post(s, Some(JsonContentType), Some(body), env) == Step(s, Error(502, DatabaseError(NotInitialized)), false)
  {
    IncludesInside([], JsonContentType, []);
    assert [] + JsonContentType + [] == JsonContentType;
  }
}
